=== FILE: README.md ===
# CAvatar control logic in Dafny

`CAvatar` is a PyQt5 avatar widget. It shows a picture that comes from bytes, a local file or a URL,
clips it to a circle or a rounded square, rotates it on hover, and pulses an overlay while a
download is in flight. This project models the widget's discrete control logic as a functional
state machine. An immutable `AvatarState.Avatar` record holds:

- the remembered URL and `isGif`
- the animation flag and the shape
- the fixed size
- whether the loading timer is active, and the pulse radius
- the source pixmap (`_pixmap`) and the painted pixmap (`pixmap`)
- the movie slot
- the last configured rotation sweep
- the log of network requests issued

Every slot and public method is a pure transition function. The outside world is the `Env`
record of oracles: the filesystem checks, `QPixmap(path)`, `QPixmap.loadFromData`, `QMovie`
validity, and whether the shared network manager has a disk cache.

Modules: `Pixmaps` (null / picture / flat fill, scaling, the gray placeholder), `AvatarState`
(record, constants, invariant `Valid`), `Loading` (pulse tick), `Acquisition` (`_get`, reply
handlers, `setBytes`, `setUrl`, `refresh`, rescaling), `Config` (`setSize`, `setShape`),
`Hover` (enter/leave sweeps), `Paint` (clip radius), `Widget` (constructor, events, runs).

Behaviour of the code worth knowing:

- The pulse radius runs 1..10 while loading, not 0..9 (`Loading.PulseCycle`).
- `setUrl` returns at once, so the remembered URL stays empty. No public call ever reaches the
  network (`Widget.PublicEventsNeverFetch`), and `refresh` paints the placeholder whenever the
  widget size is non-empty; with an empty side the placeholder is null and the old picture stays.
- Corrupt bytes given to `setBytes` leave the source null and the previous picture on screen.
  No placeholder is painted.
- The same holds for a local file that is not an image. An invalid gif reply or gif file
  also leaves the painted pixmap unchanged.
- `onError` does not stop the loading timer; only `onFinished` does.

Qt behaviour the model relies on:

- `QPixmap(size)` and `scaled()` with an empty size give a null pixmap.
- `setMinimumSize`/`setMaximumSize` are taken to clamp each side to [0, 16777215]; a side of
  exactly 16777215 is an exception noted under "Left out".
- A failed `loadFromData` leaves the pixmap null.
- PyQt5 treats a null `QPixmap` as false.

## Model

| member | source | states |
|---|---|---|
| `Pixmaps.Filled` | app/components/CAvatar.py:153-154 | a filled pixmap has the requested size and colour, or is null when a side is zero |
| `Pixmaps.Placeholder` | app/components/CAvatar.py:161-162 | the placeholder is gray at exactly w×h, and null when a side is 0 |
| `Pixmaps.Scaled` | app/components/CAvatar.py:230-231 | scaling ignores aspect ratio: same picture at exactly the target size; null in or empty target gives null |
| `Loading.OnLoading` | app/components/CAvatar.py:124-133 | an active tick increments the radius, wrapping 10 to 1, and keeps it in [1,10]; an inactive tick clears it; nothing else changes |
| `Loading.IsLoading` | app/components/CAvatar.py:170-173 | `isLoading` is the timer's state; when it is false the pulse radius is 0 in any valid state |
| `Loading.PulseCycle` | app/components/CAvatar.py:124-133 | from radius 0 with the timer on, after n ticks the radius is (n-1) mod 10 + 1 |
| `Loading.PulseReachesTen` | app/components/CAvatar.py:127-130 | the tenth tick shows 10, the eleventh wraps to 1 |
| `Loading.TicksOnlyMoveRadius` | app/components/CAvatar.py:124-133 | ticks change only the radius, so `isLoading` is unaffected |
| `Acquisition.ResizePixmap` | app/components/CAvatar.py:226-232 | a non-null source is painted at exactly the widget size; a null source leaves the painted pixmap alone |
| `Acquisition.OnError` | app/components/CAvatar.py:157-163 | the source becomes the w×h gray placeholder and is painted; no request; the timer is untouched |
| `Acquisition.OnFinished` | app/components/CAvatar.py:135-155 | the timer stops and the radius clears; a gif gets a movie; otherwise the decoded picture, or the placeholder when the decode fails, is painted at w×h; nothing else changes |
| `Acquisition.LoadLocal` | app/components/CAvatar.py:279-290 | radius cleared; an existing regular file loads as a movie (gif) or a pixmap that is painted at w×h when non-null; anything else takes the `onError` path and paints the placeholder; nothing else changes |
| `Acquisition.Get` | app/components/CAvatar.py:254-290 | empty source takes the error path; a request is issued iff the URL starts with `http` and no load is in flight, which starts the timer; otherwise the local branch; nothing outside the request log, timer, radius and pictures changes |
| `Acquisition.GoesToNetwork` | app/components/CAvatar.py:261 | a URL goes to the network iff its first four characters are `http` (no `://` needed) and no load is in flight |
| `Acquisition.HasPngMagic` | app/components/CAvatar.py:184 | the PNG test is true iff the first four bytes are 0x89 'P' 'N' 'G'; shorter input fails it |
| `Acquisition.Refresh` | app/components/CAvatar.py:165-168 | with the empty remembered URL the result is the error path; at most one request |
| `Acquisition.SetUrl` | app/components/CAvatar.py:192-198 | the state is unchanged |
| `Acquisition.SetBytes` | app/components/CAvatar.py:181-190 | PNG-signature bytes decode as PNG, other bytes as JFIF, a pixmap is adopted, anything else leaves the source null; a null source keeps the old picture on screen |
| `Acquisition.OnFrameChanged` | app/components/CAvatar.py:234-240 | once a movie exists, its frame is painted at the widget size, and a null frame or an empty size blanks the avatar; otherwise nothing changes |
| `Config.ClampSide` | app/components/CAvatar.py:213-214 | a fixed side lies in [0, 16777215] and equals the requested side when that is in range |
| `Config.SetSize` | app/components/CAvatar.py:207-215 | a non-QSize argument fixes 64×64; a non-null source is repainted at the new size; nothing else changes |
| `Config.SetSizeIdempotent` | app/components/CAvatar.py:207-215 | setting the same size twice equals setting it once |
| `Config.SetShape` | app/components/CAvatar.py:175-179 | the shape is stored unchecked; nothing else changes |
| `Hover.TruncDiv` | app/components/CAvatar.py:119 | `int()` of a quotient truncates toward zero |
| `Hover.OrElse` | app/components/CAvatar.py:104 | `cv or default` replaces both a missing value and 0 |
| `Hover.EnterSweepAsWritten` | app/components/CAvatar.py:103-108 | enter sweeps to 360 from the live value (0 if falsy): 540 from 0, else a duration proportional to the live value |
| `Hover.EnterSweep` | app/components/CAvatar.py:103-108 | corrected enter sweep: duration proportional to the angle still to turn; starts at the live angle modulo a full turn |
| `Hover.LeaveSweep` | app/components/CAvatar.py:117-121 | leave sweeps to 0 from the live value (360 if falsy), with a duration proportional to that value, 540 for a full sweep; starts at the live angle modulo a full turn |
| `Hover.OnEnter` | app/components/CAvatar.py:97-109 | no-op unless animation is on and the widget is not a gif; otherwise only the sweep changes, to the as-written enter sweep from the live value (0 if falsy) to 360 |
| `Hover.OnEnterCorrected` | app/components/CAvatar.py:97-109 | the enter handler with the corrected duration: rising over an angle takes as long as the leave sweep falling over it |
| `Hover.Rotates` | app/components/CAvatar.py:101 | the hover handlers act only when animation is on and the widget is not a gif |
| `Hover.ScaledDuration` | app/components/CAvatar.py:119 | a duration proportional to the angle, 540 for 360 and 0 for 0, rounded down |
| `Hover.OnLeave` | app/components/CAvatar.py:111-122 | no-op unless animation is on and the widget is not a gif; otherwise only the sweep changes |
| `Hover.EnterDurationCountsTurnedAngle` | app/components/CAvatar.py:105-106 | from a live 300 the as-written enter gets 450 for 60 degrees, the corrected one 90 |
| `Hover.EnterLeaveSameSpeed` | app/components/CAvatar.py:103-121 | with the correction, rising and falling over the same angle take equally long |
| `Paint.ClipRadius` | app/components/CAvatar.py:70-74 | circle: half the shorter side rounded down; rectangle: 4; any other shape has no radius |
| `Widget.Create` | app/components/CAvatar.py:35-59 | the constructor URL only sets `isGif` and is never loaded; truthy bytes go through `setBytes`; the size is that of `setSize` (64×64 for a non-QSize); no request, timer off |
| `Widget.Truthy` | app/components/CAvatar.py:54 | `if img_bytes:` is false for `None`, empty bytes and a null pixmap, and otherwise follows the value's truthiness |
| `Widget.Step` | app/components/CAvatar.py:97-240 | every handler keeps the invariant; only `_get` and `refresh` can issue requests |
| `Widget.Run` | app/components/CAvatar.py:97-240 | any sequence of events keeps the invariant |
| `Widget.PublicEventsNeverFetch` | app/components/CAvatar.py:192-198 | with the empty remembered URL, no public event sequence issues a request |
| `Widget.ConstructedWidgetNeverFetches` | app/components/CAvatar.py:35-59 | every state reached from construction by public events is valid and has issued no request |
| `Widget.RefreshShowsPlaceholder` | app/components/CAvatar.py:165-168 | `refresh` with the empty URL paints the placeholder and issues no request |
| `Widget.GetStartsLoading` | app/components/CAvatar.py:170-173 | `isLoading` turns on exactly when `_get` issues a request and `_get` never turns it off |
| `Widget.SecondHttpLoadFallsThrough` | app/components/CAvatar.py:261-290 | an `http` load during another issues no second request, keeps the timer running and falls through to the local branch, which paints the placeholder when the path is no regular file |
| `Widget.ShapeDecidesClipRadius` | app/components/CAvatar.py:175-179 | after `setShape`, painting has a clip radius iff the shape is Circle or Rectangle |
| `Widget.GifWidgetNeverRotates` | app/components/CAvatar.py:45 | `isGif` is set only by the constructor's URL: a widget built from a `.gif` URL never rotates on hover after any events |
| `Widget.UnreachableUrl` | app/components/CAvatar.py:135-163 | request, ticks, error then an empty finish: timer stopped, radius 0, placeholder painted |

## Left out

- Drawing in `paintEvent`: the painter, clip path, translation and rotation, and the overlay
  brush. Its alpha `int((1 - p/10)*255)` is floating point. Only the integer radius is modelled.
- The time-based interpolation of `QPropertyAnimation` and the `angle` property setter. The
  animation's live value at an event is a parameter. The sweep's running state is not tracked.
- Hover.EnterSweepAsWritten, Hover.ScaledDuration: the duration is the truncated exact quotient `cv*540/360`, not the
  double-precision `int(cv/360*540)`. In doubles 26/360*540 is 38.99999999999999, so for live
  values 26, 52, 104, 208 and 298 the source gets one less.
- Hover.LeaveSweep: the same exact-quotient simplification as the enter sweep.
- Config.SetSize, Config.ClampSide: Qt's sizing is modelled as a plain clamp of each side to [0, 16777215]. Qt stores
  a minimum of exactly 16777215 as "no minimum" and bounds the following resize by the old
  maximum, so a side of 16777215 leaves the widget at its previous size; this edge is not modelled.
- `QMovie` decoding and frame timing: a movie is valid or not, by oracle. Frames arrive as
  `FrameChanged` events. Movies created earlier stay connected in the source; they are not
  modelled.
- `setCacheDir` and `_initNetWork`: the process-wide network manager and disk-cache attachment.
  Only whether a cache is attached is kept, as `Env.hasCache`; it decides the cache-control
  attributes of a request.
- The network itself: a request is logged, and its reply arrives as `Finished`/`Error` events
  carrying the data. Reply ownership (`deleteLater`) is not modelled.
- The filesystem (`os.path.exists`, `os.path.isfile`) and `QPixmap(path)`: oracles in `Env`.
- `update()` repaint requests: they change no state.
- The widget's size before `setSize` runs in the constructor. The model starts at 0×0; nothing
  observes the size before `setSize` overwrites it.
- Acquisition.SetBytes: pixmaps are values here, but the source shares `QPixmap` objects. `setBytes`
  adopts the caller's pixmap by reference (app/components/CAvatar.py:189), so a later change the
  caller makes to it (a `fill`, say) shows at the next `_resizePixmap`; and `onFinished` decodes in
  place with `loadFromData` (app/components/CAvatar.py:151), overwriting or invalidating that
  shared pixmap. Aliasing is not modelled.
- The loading timer's 50 ms period: only whether the timer is active is kept.
- Python types other than `bytes` and `QPixmap` given to `setBytes` (such as `bytearray`) are
  all `OtherArg`, carrying only their truthiness.
- The `__main__` demo and its embedded PNG literal (app/components/CAvatar.py:293-303).

## Findings

| source | as written | input that shows it | evidently intended | confidence | as-written member | corrected member |
|---|---|---|---|---|---|---|
| app/components/CAvatar.py:105-106 | enter duration `int(cv/360*540)` grows with the angle already turned; the `cv == 0` special case exists because that formula gives 0 there | enter with live value 300: 450 for the 60 degrees left, the same as the 300-degree leave sweep from 300 | a duration proportional to the remaining `360 - cv`, 90 here, matching the leave handler's speed | medium, not executed | `Hover.EnterSweepAsWritten`, shown by `Hover.EnterDurationCountsTurnedAngle`; used by `Hover.OnEnter` | `Hover.EnterSweep`, with `Hover.EnterLeaveSameSpeed`; used by `Hover.OnEnterCorrected` |

=== FILE: acquisition.dfy ===
/** Obtaining the picture: `_get` and its network and local-file branches,
    the reply handlers `onFinished` and `onError`, `setBytes`, the no-op
    `setUrl`, `refresh`, and the rescaling helpers. */
module Acquisition {
  import opened Pixmaps
  import opened AvatarState

  /** `_resizePixmap`: a non-null source replaces what is painted, stretched
      to exactly the widget size; a null source leaves the painted pixmap alone. */
  function ResizePixmap(s: Avatar): (r: Avatar)
    ensures r.(shown := s.shown) == s
    ensures s.source.Null? ==> r.shown == s.shown
    ensures s.source.Pix? && s.width > 0 && s.height > 0 ==>
      r.shown.Pix? && r.shown.content == s.source.content
      && r.shown.width == s.width && r.shown.height == s.height
    ensures s.source.Pix? && (s.width == 0 || s.height == 0) ==> r.shown.Null?
    ensures Valid(s.(source := Null)) ==> Valid(r)
  {
    if s.source.Null? then s else s.(shown := Scaled(s.source, s.width, s.height))
  }

  /** `onError`: the source becomes the w×h gray placeholder and is painted.
      No request is issued and the loading timer keeps its state. */
  function OnError(s: Avatar): (r: Avatar)
    ensures r.(source := s.source, shown := s.shown) == s
    ensures r.loading == s.loading && r.requests == s.requests
    ensures r.source == Placeholder(s.width, s.height)
    ensures s.width > 0 && s.height > 0 ==>
      IsPlaceholder(r.shown) && r.shown.width == s.width && r.shown.height == s.height
    ensures s.width == 0 || s.height == 0 ==> r.shown == s.shown
    ensures Valid(s) ==> Valid(r)
  {
    ResizePixmap(s.(source := Placeholder(s.width, s.height)))
  }

  /** `onFinished` for a reply carrying `data`. The timer always stops and the
      radius is cleared. A gif widget hands the data to a new movie and leaves
      the pictures alone; any other widget decodes the data, and a decode
      that yields nothing is replaced by the gray placeholder, so with a
      non-empty size something of exactly that size is painted. */
  function OnFinished(s: Avatar, data: seq<byte>, env: Env): (r: Avatar)
    ensures !r.loading && r.pradius == 0
    ensures r.(loading := s.loading, pradius := s.pradius, source := s.source, shown := s.shown,
               movie := s.movie) == s
    ensures r.requests == s.requests && r.url == s.url && r.sweep == s.sweep
    ensures r.width == s.width && r.height == s.height
    ensures s.isGif ==>
      r.movie == Movie(env.movieDataValid(data)) && r.source == s.source && r.shown == s.shown
    ensures !s.isGif ==> r.movie == s.movie
    ensures !s.isGif && env.decode(Detect, data).Pix? ==> r.source == env.decode(Detect, data)
    ensures !s.isGif && env.decode(Detect, data).Null? ==> r.source == Placeholder(s.width, s.height)
    ensures !s.isGif && s.width > 0 && s.height > 0 ==>
      r.shown.Pix? && r.shown.width == s.width && r.shown.height == s.height
    ensures !s.isGif && r.source.Pix? ==> r.shown == Scaled(r.source, s.width, s.height)
    ensures Valid(s) ==> Valid(r)
  {
    var stopped := s.(loading := false, pradius := 0);
    if s.isGif then
      stopped.(movie := Movie(env.movieDataValid(data)))
    else
      var decoded := env.decode(Detect, data);
      var source := if decoded.Null? then Placeholder(s.width, s.height) else decoded;
      ResizePixmap(stopped.(source := source))
  }

  /** Whether `_get` sends `url` to the network: it must start with `http`
      (no `://` is required) and no load may be in flight. */
  function GoesToNetwork(s: Avatar, url: string): (r: bool)
    ensures r <==> (!s.loading && |url| >= 4
      && url[0] == 'h' && url[1] == 't' && url[2] == 't' && url[3] == 'p')
  {
    StartsWith(url, "http") && !s.loading
  }

  /** The local-file branch of `_get`. The radius is cleared; an existing
      regular file becomes a movie on a gif widget and the source pixmap
      otherwise; anything else falls back to the placeholder. */
  function LoadLocal(s: Avatar, url: string, env: Env): (r: Avatar)
    ensures r.pradius == 0
    ensures r.(pradius := s.pradius, source := s.source, shown := s.shown, movie := s.movie) == s
    ensures r.loading == s.loading && r.requests == s.requests && r.url == s.url
    ensures r.width == s.width && r.height == s.height && r.sweep == s.sweep
    ensures env.pathExists(url) && env.isFile(url) && s.isGif ==>
      r.movie == Movie(env.movieFileValid(url)) && r.source == s.source && r.shown == s.shown
    ensures env.pathExists(url) && env.isFile(url) && !s.isGif ==>
      r.source == env.loadFile(url) && r.movie == s.movie
    ensures env.pathExists(url) && env.isFile(url) && !s.isGif && r.source.Null? ==>
      r.shown == s.shown
    ensures env.pathExists(url) && env.isFile(url) && !s.isGif && r.source.Pix? ==>
      r.shown == Scaled(r.source, s.width, s.height)
    ensures !(env.pathExists(url) && env.isFile(url)) ==>
      r.source == Placeholder(s.width, s.height) && r.movie == s.movie
    ensures !(env.pathExists(url) && env.isFile(url)) ==> r == OnError(s.(pradius := 0))
    ensures Valid(s) ==> Valid(r)
  {
    var cleared := s.(pradius := 0);
    if env.pathExists(url) && env.isFile(url) then
      if s.isGif then
        cleared.(movie := Movie(env.movieFileValid(url)))
      else
        ResizePixmap(cleared.(source := env.loadFile(url)))
    else
      OnError(cleared)
  }

  /** `_get(url)`. An empty source takes the error path. A URL bound for the
      network issues exactly one request (following redirects, with the cache
      attributes when a cache is attached), clears the radius and starts the
      timer, leaving the pictures alone. Every other URL, including an `http`
      URL that arrives while a load is in flight, takes the local-file branch. */
  function Get(s: Avatar, url: string, env: Env): (r: Avatar)
    ensures url == [] ==> r == OnError(s)
    ensures r.(requests := s.requests, loading := s.loading, pradius := s.pradius,
               source := s.source, shown := s.shown, movie := s.movie) == s
    ensures url != [] && GoesToNetwork(s, url) ==>
      && r.requests == s.requests + [Request(url, true, env.hasCache)]
      && r.loading && r.pradius == 0
      && r.source == s.source && r.shown == s.shown && r.movie == s.movie
    ensures url != [] && !GoesToNetwork(s, url) ==> r == LoadLocal(s, url, env)
    ensures |r.requests| > |s.requests| <==> url != [] && GoesToNetwork(s, url)
    ensures r.url == s.url && r.width == s.width && r.height == s.height
    ensures Valid(s) ==> Valid(r)
  {
    if url == [] then
      OnError(s)
    else if GoesToNetwork(s, url) then
      s.(requests := s.requests + [Request(url, true, env.hasCache)], pradius := 0, loading := true)
    else
      LoadLocal(s, url, env)
  }

  /** `refresh`: reload the remembered source. */
  function Refresh(s: Avatar, env: Env): (r: Avatar)
    ensures s.url == [] ==> r == OnError(s)
    ensures |r.requests| <= |s.requests| + 1
    ensures Valid(s) ==> Valid(r)
  {
    Get(s, s.url, env)
  }

  /** `setUrl`: returns before storing or loading anything. */
  function SetUrl(s: Avatar, url: string): (r: Avatar)
    ensures r == s
  {
    s
  }

  /** The argument of `setBytes`: a Python `bytes` value, a `QPixmap`, or
      anything else, with that value's Python truthiness. */
  datatype ImageArg = BytesArg(data: seq<byte>) | PixmapArg(pixmap: Pixmap) | OtherArg(truthy: bool)

  /** The PNG signature's first four bytes, `\x89PNG`. */
  const PngMagic: seq<byte> := [0x89, 0x50, 0x4E, 0x47]

  function HasPngMagic(data: seq<byte>): (r: bool)
    ensures r <==> (|data| >= 4
      && data[0] == 0x89 && data[1] == 0x50 && data[2] == 0x4E && data[3] == 0x47)
  {
    |data| >= 4 && data[..4] == PngMagic
  }

  /** `setBytes`. The source is first reset to null. Bytes starting with the
      PNG signature are decoded as PNG, other bytes as JFIF; a pixmap is
      adopted as it is; any other value leaves the source null. A null source
      leaves the previously painted pixmap on screen. */
  function SetBytes(s: Avatar, arg: ImageArg, env: Env): (r: Avatar)
    ensures r.(source := s.source, shown := s.shown) == s
    ensures arg.BytesArg? && HasPngMagic(arg.data) ==> r.source == env.decode(Png, arg.data)
    ensures arg.BytesArg? && !HasPngMagic(arg.data) ==> r.source == env.decode(Jfif, arg.data)
    ensures arg.PixmapArg? ==> r.source == arg.pixmap
    ensures arg.OtherArg? ==> r.source == Null
    ensures r.source.Null? ==> r.shown == s.shown
    ensures r.source.Pix? ==> r.shown == Scaled(r.source, s.width, s.height)
    ensures Valid(s) ==> Valid(r)
  {
    var source := match arg
      case BytesArg(data) => env.decode(if HasPngMagic(data) then Png else Jfif, data)
      case PixmapArg(p) => p
      case OtherArg(_) => Null;
    ResizePixmap(s.(source := source))
  }

  /** `_resizeGifPixmap` on a frame change: once a movie exists its current
      frame, stretched to the widget size, is painted. A null frame (the
      current pixmap of a newer, invalid movie while an older one still
      signals) or an empty size paints a null pixmap and blanks the avatar. */
  function OnFrameChanged(s: Avatar, frame: Pixmap): (r: Avatar)
    ensures s.movie.NoMovie? ==> r == s
    ensures s.movie.Movie? ==> r.(shown := s.shown) == s
    ensures s.movie.Movie? && frame.Pix? && s.width > 0 && s.height > 0 ==>
      r.shown.Pix? && r.shown.content == frame.content
      && r.shown.width == s.width && r.shown.height == s.height
    ensures s.movie.Movie? && (frame.Null? || s.width == 0 || s.height == 0) ==> r.shown.Null?
    ensures Valid(s) ==> Valid(r)
  {
    if s.movie.Movie? then s.(shown := Scaled(frame, s.width, s.height)) else s
  }
}

=== FILE: avatar_state.dfy ===
/** The state of one avatar widget and the collaborators it consults. */
module AvatarState {
  import opened Options
  import opened Pixmaps

  /** `CAvatar.Circle` and `CAvatar.Rectangle`; `setShape` accepts any int. */
  const Circle := 0
  const Rectangle := 1

  /** The rotation endpoints and the duration of a full sweep. */
  const StartAngle := 0
  const EndAngle := 360
  const FullSweepDuration := 540

  /** Qt's largest widget side (`QWIDGETSIZE_MAX`). */
  const WidgetSizeMax := 16777215

  newtype byte = x: int | 0 <= x < 256

  /** A size as `QSize(width, height)`. */
  datatype Size = Size(width: int, height: int)

  /** The class's public size presets; the constructor defaults to the medium one. */
  const SizeLarge := Size(128, 128)
  const SizeMedium := Size(64, 64)
  const SizeSmall := Size(32, 32)

  /** Start value, end value and duration configured on the rotation
      animation for one sweep. */
  datatype Sweep = Sweep(start: int, end: int, duration: int)

  /** The `QMovie` slot: none yet, or a movie that was started exactly when
      its decoder reported it valid. */
  datatype Movie = NoMovie | Movie(valid: bool)

  /** A network request as issued: the URL, redirect following, and whether the
      cache-control attributes were set because a disk cache is attached. */
  datatype Request = Request(url: string, followRedirects: bool, cacheControl: bool)

  /** Formats handed to `QPixmap.loadFromData`; `Detect` is the call without one. */
  datatype Format = Png | Jfif | Detect

  /** Everything the widget learns from outside its own state: the
      filesystem checks, the decoders, and whether the shared network
      manager has a disk cache attached. */
  datatype Env = Env(
    pathExists: string -> bool,
    isFile: string -> bool,
    loadFile: string -> Pixmap,
    movieFileValid: string -> bool,
    decode: (Format, seq<byte>) -> Pixmap,
    movieDataValid: seq<byte> -> bool,
    hasCache: bool)

  /** The widget's control state.
      - `url`: the remembered source string (`self.url`)
      - `isGif`: fixed at construction from the constructor's URL
      - `width`, `height`: the fixed widget size
      - `loading`: whether the loading timer is active
      - `pradius`: the pulse radius
      - `source`: `self._pixmap`; `shown`: `self.pixmap`, the one painted
      - `sweep`: the last configured rotation sweep, if any
      - `requests`: every network request issued so far, oldest first */
  datatype Avatar = Avatar(
    url: string,
    isGif: bool,
    animation: bool,
    shape: int,
    width: nat,
    height: nat,
    loading: bool,
    pradius: int,
    source: Pixmap,
    shown: Pixmap,
    movie: Movie,
    sweep: Option<Sweep>,
    requests: seq<Request>)

  /** The invariant every reachable state keeps:
      the pulse radius lies in [0, 10] and is 0 while the timer is stopped;
      the size is within Qt's bounds; the painted pixmap is never malformed;
      and, as long as no movie has taken over the display, a non-null source
      is exactly what is painted, stretched to the widget size. A movie only
      ever exists on a gif widget. */
  predicate Valid(s: Avatar) {
    && 0 <= s.pradius <= 10
    && (!s.loading ==> s.pradius == 0)
    && s.width <= WidgetSizeMax && s.height <= WidgetSizeMax
    && WellFormed(s.shown)
    && (s.movie.NoMovie? && s.source.Pix? ==> s.shown == Scaled(s.source, s.width, s.height))
    && (s.movie.Movie? ==> s.isGif)
  }

  function StartsWith(s: string, prefix: string): bool {
    |prefix| <= |s| && s[..|prefix|] == prefix
  }

  function EndsWith(s: string, suffix: string): bool {
    |suffix| <= |s| && s[|s| - |suffix|..] == suffix
  }
}

=== FILE: config.dfy ===
/** The setters `setSize` and `setShape`. */
module Config {
  import opened Pixmaps
  import opened AvatarState
  import Acquisition

  /** The argument of `setSize`: a `QSize`, or any other value. */
  datatype SizeArg = QSizeArg(size: Size) | OtherSizeArg

  /** Qt keeps a widget side within [0, QWIDGETSIZE_MAX] when the minimum
      and maximum sizes are set. */
  function ClampSide(v: int): (r: nat)
    ensures r <= WidgetSizeMax
    ensures 0 <= v <= WidgetSizeMax ==> r == v
    ensures v < 0 ==> r == 0
    ensures v > WidgetSizeMax ==> r == WidgetSizeMax
  {
    if v < 0 then 0 else if v > WidgetSizeMax then WidgetSizeMax else v
  }

  /** `setSize`: anything other than a `QSize` means 64×64. The minimum and
      the maximum size are both set, fixing the widget to that size, and a
      non-null source is repainted at the new size. */
  function SetSize(s: Avatar, arg: SizeArg): (r: Avatar)
    ensures r.(width := s.width, height := s.height, shown := s.shown) == s
    ensures arg.OtherSizeArg? ==> r.width == 64 && r.height == 64
    ensures arg.QSizeArg? ==>
      r.width == ClampSide(arg.size.width) && r.height == ClampSide(arg.size.height)
    ensures s.source.Null? ==> r.shown == s.shown
    ensures s.source.Pix? ==> r.shown == Scaled(s.source, r.width, r.height)
    ensures Valid(s) ==> Valid(r)
  {
    var size := if arg.QSizeArg? then arg.size else SizeMedium;
    Acquisition.ResizePixmap(s.(width := ClampSide(size.width), height := ClampSide(size.height)))
  }

  /** Applying the same size twice is the same as applying it once. */
  lemma SetSizeIdempotent(s: Avatar, arg: SizeArg)
    ensures SetSize(SetSize(s, arg), arg) == SetSize(s, arg)
  {
  }

  /** `setShape`: stores the shape unchecked; nothing else changes. */
  function SetShape(s: Avatar, shape: int): (r: Avatar)
    ensures r.shape == shape && r.(shape := s.shape) == s
  {
    s.(shape := shape)
  }
}

=== FILE: hover.dfy ===
/** The hover rotation: the sweep `enterEvent` and `leaveEvent` configure.
    The interpolation itself is not modelled; the animation's live current
    value at the moment of the event is a parameter (`None` before any sweep
    has run). */
module Hover {
  import opened Options
  import opened AvatarState

  /** Python's `int()` of an exact quotient: truncation toward zero. */
  function TruncDiv(a: int, b: int): (q: int)
    requires b > 0
    ensures a >= 0 ==> q >= 0 && q * b <= a < q * b + b
    ensures a < 0 ==> q <= 0 && q * b - b < a <= q * b
  {
    if a >= 0 then a / b else -((-a) / b)
  }

  /** `cv or default`: a missing value and an angle of 0 are both replaced. */
  function OrElse(cv: Option<int>, default: int): (v: int)
    ensures cv.Some? && cv.value != 0 ==> v == cv.value
    ensures cv.None? || cv.value == 0 ==> v == default
  {
    if cv.Some? && cv.value != 0 then cv.value else default
  }

  /** `int(cv / 360 * 540)` on the exact rational. */
  function ScaledDuration(angle: int): (d: int)
    ensures angle >= 0 ==> 0 <= d && d * EndAngle <= angle * FullSweepDuration < d * EndAngle + EndAngle
    ensures angle == EndAngle ==> d == FullSweepDuration
    ensures angle == 0 ==> d == 0
  {
    TruncDiv(angle * FullSweepDuration, EndAngle)
  }

  /** The sweep `enterEvent` configures, exactly as written: from the live
      value (0 when absent) up to 360, taking 540 from 0 and otherwise a time
      proportional to the live value, that is to the angle already turned. */
  function EnterSweepAsWritten(cv: Option<int>): (w: Sweep)
    ensures w.end == EndAngle
    ensures cv.None? || cv.value == 0 ==> w.start == 0 && w.duration == FullSweepDuration
    ensures cv.Some? && cv.value != 0 ==> w.start == cv.value
    ensures cv.Some? && 0 < cv.value ==>
      w.duration * EndAngle <= cv.value * FullSweepDuration < w.duration * EndAngle + EndAngle
  {
    var v := OrElse(cv, StartAngle);
    Sweep(v, EndAngle, if v == 0 then FullSweepDuration else ScaledDuration(v))
  }

  /** The sweep `enterEvent` is evidently meant to configure: from the live
      value up to 360, taking a time proportional to the angle still to turn,
      so that the rotation speed is that of a full 540-long sweep. A live
      value within a turn is where the new sweep starts, modulo a full turn,
      so a restart never makes the picture jump. */
  function EnterSweep(cv: Option<int>): (w: Sweep)
    ensures w.end == EndAngle
    ensures cv.None? || cv.value == 0 ==> w.start == 0 && w.duration == FullSweepDuration
    ensures cv.Some? && cv.value != 0 ==> w.start == cv.value
    ensures w.start <= EndAngle ==>
      w.duration * EndAngle <= (w.end - w.start) * FullSweepDuration
        < w.duration * EndAngle + EndAngle
    ensures cv.Some? && StartAngle <= cv.value <= EndAngle ==> w.start % 360 == cv.value % 360
  {
    var v := OrElse(cv, StartAngle);
    Sweep(v, EndAngle, ScaledDuration(EndAngle - v))
  }

  /** The sweep `leaveEvent` configures: from the live value (360 when the
      value is absent or 0) down to 0, taking a time proportional to the
      angle still to turn, so a full sweep takes 540. A live 0 restarts from
      the equivalent 360, so the picture does not jump. */
  function LeaveSweep(cv: Option<int>): (w: Sweep)
    ensures w.end == StartAngle
    ensures cv.None? || cv.value == 0 ==> w.start == EndAngle && w.duration == FullSweepDuration
    ensures cv.Some? && cv.value != 0 ==> w.start == cv.value
    ensures w.start >= 0 ==>
      w.duration * EndAngle <= (w.start - w.end) * FullSweepDuration
        < w.duration * EndAngle + EndAngle
    ensures cv.Some? && StartAngle <= cv.value <= EndAngle ==> w.start % 360 == cv.value % 360
  {
    var v := OrElse(cv, EndAngle);
    Sweep(v, StartAngle, ScaledDuration(v))
  }

  /** Both handlers act only on a widget with animation on and no gif. */
  function Rotates(s: Avatar): (r: bool)
    ensures r ==> s.animation && !s.isGif
    ensures !s.animation || s.isGif ==> !r
  {
    s.animation && !s.isGif
  }

  /** `enterEvent`: restart the rotation toward 360 from the live value, with
      the duration exactly as the handler computes it. */
  function OnEnter(s: Avatar, cv: Option<int>): (r: Avatar)
    ensures !Rotates(s) ==> r == s
    ensures Rotates(s) ==> r.sweep == Some(EnterSweepAsWritten(cv)) && r.(sweep := s.sweep) == s
    ensures Rotates(s) ==> r.sweep.value.start == OrElse(cv, StartAngle) && r.sweep.value.end == EndAngle
    ensures Valid(s) ==> Valid(r)
  {
    if Rotates(s) then s.(sweep := Some(EnterSweepAsWritten(cv))) else s
  }

  /** `enterEvent` with the duration it is evidently meant to have: the time
      is proportional to the angle still to turn. */
  function OnEnterCorrected(s: Avatar, cv: Option<int>): (r: Avatar)
    ensures !Rotates(s) ==> r == s
    ensures Rotates(s) ==> r.sweep == Some(EnterSweep(cv)) && r.(sweep := s.sweep) == s
    ensures Rotates(s) && cv.Some? && 0 < cv.value < EndAngle ==>
      r.sweep.value.duration == LeaveSweep(Some(EndAngle - cv.value)).duration
    ensures Valid(s) ==> Valid(r)
  {
    if Rotates(s) then s.(sweep := Some(EnterSweep(cv))) else s
  }

  /** `leaveEvent`: restart the rotation toward 0 from the live value. */
  function OnLeave(s: Avatar, cv: Option<int>): (r: Avatar)
    ensures !Rotates(s) ==> r == s
    ensures Rotates(s) ==> r.sweep == Some(LeaveSweep(cv)) && r.(sweep := s.sweep) == s
    ensures Valid(s) ==> Valid(r)
  {
    if Rotates(s) then s.(sweep := Some(LeaveSweep(cv))) else s
  }

  /** The as-written enter duration measures the angle already turned: from a
      live value of 300 only 60 degrees remain, yet the sweep is given 450,
      the same as the 300-degree sweep back down from that value. The
      intended duration for 60 degrees is 90. */
  lemma EnterDurationCountsTurnedAngle()
    ensures EnterSweepAsWritten(Some(300)) == Sweep(300, 360, 450)
    ensures LeaveSweep(Some(300)) == Sweep(300, 0, 450)
    ensures EnterSweep(Some(300)) == Sweep(300, 360, 90)
  {
  }

  /** With the corrected enter duration, a rise over some angle takes as long
      as a fall over the same angle. */
  lemma EnterLeaveSameSpeed(a: int)
    requires 0 < a < EndAngle
    ensures EnterSweep(Some(EndAngle - a)).duration == LeaveSweep(Some(a)).duration
  {
  }
}

=== FILE: loading.dfy ===
/** The loading-pulse clock: `onLoading` and `isLoading`. */
module Loading {
  import opened AvatarState

  /** One timer tick (`onLoading`). While the timer runs, a radius above 9
      first drops to 0 and is then incremented, so the radius climbs 1, 2, …,
      10 and wraps to 1; with the timer stopped the radius is cleared. */
  function OnLoading(s: Avatar): (r: Avatar)
    ensures r.(pradius := s.pradius) == s
    ensures !s.loading ==> r.pradius == 0
    ensures s.loading && 0 <= s.pradius ==> 1 <= r.pradius <= 10
    ensures s.loading && 0 <= s.pradius < 10 ==> r.pradius == s.pradius + 1
    ensures s.loading && s.pradius >= 10 ==> r.pradius == 1
    ensures Valid(s) ==> Valid(r)
  {
    if s.loading then
      var p := if s.pradius > 9 then 0 else s.pradius;
      s.(pradius := p + 1)
    else
      s.(pradius := 0)
  }

  /** `isLoading`: whether the loading timer is active. */
  function IsLoading(s: Avatar): (r: bool)
    ensures r <==> s.loading
    ensures Valid(s) && !r ==> s.pradius == 0
  {
    s.loading
  }

  /** The state after `n` consecutive ticks. */
  function Ticks(s: Avatar, n: nat): Avatar
    decreases n
  {
    if n == 0 then s else OnLoading(Ticks(s, n - 1))
  }

  /** Starting from a cleared radius with the timer running, the radius after
      `n` ticks is 1, 2, …, 10, 1, 2, …: it reaches 10 and never shows 0 again
      until the timer stops. */
  lemma {:induction false} PulseCycle(s: Avatar, n: nat)
    requires s.loading && s.pradius == 0
    ensures Ticks(s, n).loading
    ensures Ticks(s, n).pradius == if n == 0 then 0 else (n - 1) % 10 + 1
  {
    if n > 0 {
      PulseCycle(s, n - 1);
      var m := n - 1;
      if m > 0 {
        assert Ticks(s, m).pradius == (m - 1) % 10 + 1;
        if (m - 1) % 10 == 9 {
          assert (n - 1) % 10 == 0;
        } else {
          assert (n - 1) % 10 == (m - 1) % 10 + 1;
        }
      }
    }
  }

  /** The tenth tick after a clear shows radius 10 and the eleventh wraps to 1. */
  lemma PulseReachesTen(s: Avatar)
    requires s.loading && s.pradius == 0
    ensures Ticks(s, 10).pradius == 10
    ensures Ticks(s, 11).pradius == 1
  {
    PulseCycle(s, 10);
    PulseCycle(s, 11);
  }

  /** Ticks never change anything but the radius, so they can neither start
      nor stop a load. */
  lemma {:induction false} TicksOnlyMoveRadius(s: Avatar, n: nat)
    ensures Ticks(s, n).(pradius := s.pradius) == s
    ensures IsLoading(Ticks(s, n)) == IsLoading(s)
  {
    if n > 0 {
      TicksOnlyMoveRadius(s, n - 1);
    }
  }
}

=== FILE: options.dfy ===
/** The absent-or-present value used for Python's `None` and for outcomes that may be missing. */
module Options {

  datatype Option<+T> = None | Some(value: T)
}

=== FILE: paint.dfy ===
/** The integer part of `paintEvent`: the corner radius of the clip path. */
module Paint {
  import opened Options
  import opened AvatarState

  /** Circle: half the shorter side, rounded down, so the rounded square of
      that side becomes a circle. Rectangle: a corner radius of 4. Any other
      shape leaves the radius unbound and painting fails. */
  function ClipRadius(shape: int, width: nat, height: nat): (r: Option<int>)
    ensures shape == Circle ==>
      r.Some? && 0 <= r.value && 2 * r.value <= width && 2 * r.value <= height
      && (2 * r.value + 2 > width || 2 * r.value + 2 > height)
    ensures shape == Rectangle ==> r == Some(4)
    ensures shape != Circle && shape != Rectangle ==> r.None?
  {
    if shape == Circle then Some((if width <= height then width else height) / 2)
    else if shape == Rectangle then Some(4)
    else None
  }
}

=== FILE: pixmaps.dfy ===
/** Qt pixmaps as the avatar sees them: null, or a picture of a given width and
    height. Pixels are abstracted: a decoded picture is known by an identity, a
    filled pixmap by its colour. */
module Pixmaps {

  /** An opaque colour as given to `QColor(r, g, b)`. */
  datatype Rgb = Rgb(red: nat, green: nat, blue: nat)

  /** The flat gray every failure path paints. */
  const PlaceholderGray := Rgb(204, 204, 204)

  datatype Content = Picture(id: nat) | Fill(color: Rgb)

  datatype Pixmap = Null | Pix(content: Content, width: nat, height: nat)

  /** Qt never holds a non-null pixmap with an empty side. */
  predicate WellFormed(p: Pixmap) {
    p.Pix? ==> p.width > 0 && p.height > 0
  }

  /** `QPixmap(QSize(w, h))` followed by `fill(color)`: an empty size yields a
      null pixmap, on which `fill` does nothing. */
  function Filled(color: Rgb, w: nat, h: nat): (p: Pixmap)
    ensures WellFormed(p)
    ensures p.Pix? <==> w > 0 && h > 0
    ensures p.Pix? ==> p.content == Fill(color) && p.width == w && p.height == h
  {
    if w > 0 && h > 0 then Pix(Fill(color), w, h) else Null
  }

  /** The w×h gray pixmap shown when a source cannot be obtained. */
  function Placeholder(w: nat, h: nat): (p: Pixmap)
    ensures IsPlaceholder(p) <==> w > 0 && h > 0
    ensures p.Null? <==> w == 0 || h == 0
    ensures p.Pix? ==> p.width == w && p.height == h
  {
    Filled(PlaceholderGray, w, h)
  }

  predicate IsPlaceholder(p: Pixmap) {
    p.Pix? && p.content == Fill(PlaceholderGray)
  }

  /** `p.scaled(w, h, Qt.IgnoreAspectRatio, ...)`: the same picture stretched to
      exactly w×h whatever its aspect ratio; a null pixmap or an empty target
      size gives a null pixmap. */
  function Scaled(p: Pixmap, w: nat, h: nat): (r: Pixmap)
    ensures WellFormed(r)
    ensures r.Pix? <==> p.Pix? && w > 0 && h > 0
    ensures r.Pix? ==> r.content == p.content && r.width == w && r.height == h
  {
    match p
    case Null => Null
    case Pix(c, _, _) => if w > 0 && h > 0 then Pix(c, w, h) else Null
  }
}

=== FILE: widget.dfy ===
/** The widget as a whole: construction, the events it reacts to, and what
    holds over any sequence of them. */
module Widget {
  import opened Options
  import opened Pixmaps
  import opened AvatarState
  import Loading
  import Acquisition
  import Config
  import Hover
  import Paint

  /** Python truthiness of the constructor's `img_bytes` (a null `QPixmap` is false). */
  function Truthy(arg: Option<Acquisition.ImageArg>): (r: bool)
    ensures arg.None? ==> !r
    ensures arg.Some? && arg.value.BytesArg? ==> (r <==> arg.value.data != [])
    ensures arg.Some? && arg.value.PixmapArg? ==> (r <==> !arg.value.pixmap.Null?)
    ensures arg.Some? && arg.value.OtherArg? ==> r == arg.value.truthy
  {
    if arg.None? then false
    else if arg.value.BytesArg? then |arg.value.data| > 0
    else if arg.value.PixmapArg? then arg.value.pixmap.Pix?
    else arg.value.truthy
  }

  /** `CAvatar(shape=…, url=…, img_bytes=…, size=…, animation=…)`. The URL
      only decides `isGif`; it is handed to the no-op `setUrl`, so it is never
      remembered or loaded. Truthy bytes go through `setBytes`. The widget
      starts with no request, no movie, no sweep, and the timer stopped. */
  function Create(shape: int, url: string, image: Option<Acquisition.ImageArg>,
                  size: Config.SizeArg, animation: bool, env: Env): (r: Avatar)
    ensures Valid(r)
    ensures r.url == [] && r.requests == [] && !r.loading && r.pradius == 0
    ensures r.isGif == EndsWith(url, ".gif") && r.animation == animation && r.shape == shape
    ensures r.movie.NoMovie? && r.sweep.None?
    ensures size.OtherSizeArg? ==> r.width == 64 && r.height == 64
    ensures size.QSizeArg? ==>
      r.width == Config.ClampSide(size.size.width) && r.height == Config.ClampSide(size.size.height)
    ensures !Truthy(image) ==> r.source.Null? && r.shown.Null?
    ensures Truthy(image) ==> r == Acquisition.SetBytes(r.(source := Null, shown := Null), image.value, env)
  {
    var blank := Avatar("", EndsWith(url, ".gif"), animation, 0, 0, 0, false, 0,
                        Null, Null, NoMovie, None, []);
    var shaped := Config.SetShape(blank, shape);
    var sized := Config.SetSize(shaped, size);
    if Truthy(image) then Acquisition.SetBytes(sized, image.value, env)
    else Acquisition.SetUrl(sized, url)
  }

  /** Everything that can happen to a widget: the timer tick, a direct `_get`,
      the reply's two signals, the public calls, the pointer, and a movie
      frame change. */
  datatype Event =
    | Tick
    | Get(url: string)
    | Finished(data: seq<byte>)
    | Error(code: int)
    | Refresh
    | SetBytes(arg: Acquisition.ImageArg)
    | SetUrl(url: string)
    | SetSize(size: Config.SizeArg)
    | SetShape(shape: int)
    | Enter(cv: Option<int>)
    | Leave(cv: Option<int>)
    | FrameChanged(frame: Pixmap)

  function Step(s: Avatar, e: Event, env: Env): (r: Avatar)
    ensures Valid(s) ==> Valid(r)
    ensures !e.Get? && !e.Refresh? ==> r.requests == s.requests
    ensures r.url == s.url
    ensures r.isGif == s.isGif && r.animation == s.animation
  {
    match e
    case Tick => Loading.OnLoading(s)
    case Get(url) => Acquisition.Get(s, url, env)
    case Finished(data) => Acquisition.OnFinished(s, data, env)
    case Error(_) => Acquisition.OnError(s)
    case Refresh => Acquisition.Refresh(s, env)
    case SetBytes(arg) => Acquisition.SetBytes(s, arg, env)
    case SetUrl(url) => Acquisition.SetUrl(s, url)
    case SetSize(size) => Config.SetSize(s, size)
    case SetShape(shape) => Config.SetShape(s, shape)
    case Enter(cv) => Hover.OnEnter(s, cv)
    case Leave(cv) => Hover.OnLeave(s, cv)
    case FrameChanged(frame) => Acquisition.OnFrameChanged(s, frame)
  }

  /** The state after processing `events` in order. Every event keeps the
      invariant, so every reachable state satisfies it. */
  function Run(s: Avatar, events: seq<Event>, env: Env): (r: Avatar)
    ensures Valid(s) ==> Valid(r)
    ensures r.url == s.url
    ensures r.isGif == s.isGif && r.animation == s.animation
    decreases |events|
  {
    if events == [] then s else Run(Step(s, events[0], env), events[1..], env)
  }

  /** `_get` is private: a caller reaches the widget only through these. */
  predicate Public(e: Event) {
    !e.Get?
  }

  /** Because `setUrl` returns at once, the remembered URL stays empty, and
      no sequence of public events ever sends a network request. */
  lemma {:induction false} PublicEventsNeverFetch(s: Avatar, events: seq<Event>, env: Env)
    requires s.url == []
    requires forall i :: 0 <= i < |events| ==> Public(events[i])
    ensures Run(s, events, env).requests == s.requests
    ensures Run(s, events, env).url == []
    decreases |events|
  {
    if events != [] {
      var t := Step(s, events[0], env);
      assert t.requests == s.requests;
      PublicEventsNeverFetch(t, events[1..], env);
    }
  }

  /** Every state reached from construction satisfies the invariant and has
      issued no request, whatever public events follow. */
  lemma ConstructedWidgetNeverFetches(shape: int, url: string, image: Option<Acquisition.ImageArg>,
                                      size: Config.SizeArg, animation: bool, env: Env,
                                      events: seq<Event>)
    requires forall i :: 0 <= i < |events| ==> Public(events[i])
    ensures var w := Create(shape, url, image, size, animation, env);
      Valid(Run(w, events, env)) && Run(w, events, env).requests == []
  {
    var w := Create(shape, url, image, size, animation, env);
    PublicEventsNeverFetch(w, events, env);
  }

  /** `refresh` on a constructed widget always takes the empty-source path:
      the gray placeholder, and no request. */
  lemma RefreshShowsPlaceholder(s: Avatar, env: Env)
    requires s.url == [] && s.width > 0 && s.height > 0
    ensures Step(s, Refresh, env).source == Placeholder(s.width, s.height)
    ensures IsPlaceholder(Step(s, Refresh, env).shown)
    ensures Step(s, Refresh, env).requests == s.requests
  {
  }

  /** `isLoading` turns on exactly when `_get` issues a request, and `_get`
      never turns it off. */
  lemma GetStartsLoading(s: Avatar, url: string, env: Env)
    ensures |Step(s, Get(url), env).requests| > |s.requests| <==>
      !Loading.IsLoading(s) && Loading.IsLoading(Step(s, Get(url), env))
    ensures Loading.IsLoading(s) ==> Loading.IsLoading(Step(s, Get(url), env))
  {
  }

  /** A second `http` load while the first is in flight issues no second
      request: it goes down the local-file branch, which for a path that is
      not a regular file paints the placeholder while the timer keeps running. */
  lemma SecondHttpLoadFallsThrough(s: Avatar, first: string, second: string, env: Env)
    requires !s.loading && StartsWith(first, "http") && StartsWith(second, "http")
    ensures Run(s, [Get(first), Get(second)], env).requests == s.requests + [Request(first, true, env.hasCache)]
    ensures Run(s, [Get(first), Get(second)], env).loading
    ensures Run(s, [Get(first), Get(second)], env).pradius == 0
    ensures !env.isFile(second) ==>
      Run(s, [Get(first), Get(second)], env).source == Placeholder(s.width, s.height)
  {
    var t := Step(s, Get(first), env);
    assert Run(s, [Get(first), Get(second)], env) == Run(t, [Get(second)], env);
    assert Run(t, [Get(second)], env) == Step(t, Get(second), env);
  }

  /** An unreachable URL on a still-image widget: the request goes out, the
      pulse runs, the reply reports an error and then finishes with no data.
      The widget ends with the timer stopped, the radius cleared and the gray
      placeholder painted at the widget size. */
  lemma UnreachableUrl(s: Avatar, url: string, code: int, env: Env)
    requires Valid(s) && !s.loading && !s.isGif && s.width > 0 && s.height > 0
    requires StartsWith(url, "http")
    requires env.decode(Detect, []).Null?
    ensures Run(s, [Get(url), Tick, Tick, Error(code), Finished([])], env).requests
      == s.requests + [Request(url, true, env.hasCache)]
    ensures !Run(s, [Get(url), Tick, Tick, Error(code), Finished([])], env).loading
    ensures Run(s, [Get(url), Tick, Tick, Error(code), Finished([])], env).pradius == 0
    ensures Run(s, [Get(url), Tick, Tick, Error(code), Finished([])], env).shown
      == Placeholder(s.width, s.height)
  {
    var s1 := Step(s, Get(url), env);
    var s2 := Step(s1, Tick, env);
    var s3 := Step(s2, Tick, env);
    var s4 := Step(s3, Error(code), env);
    var s5 := Step(s4, Finished([]), env);
    assert Run(s, [Get(url), Tick, Tick, Error(code), Finished([])], env)
      == Run(s1, [Tick, Tick, Error(code), Finished([])], env);
    assert Run(s1, [Tick, Tick, Error(code), Finished([])], env)
      == Run(s2, [Tick, Error(code), Finished([])], env);
    assert Run(s2, [Tick, Error(code), Finished([])], env) == Run(s3, [Error(code), Finished([])], env);
    assert Run(s3, [Error(code), Finished([])], env) == Run(s4, [Finished([])], env);
    assert Run(s4, [Finished([])], env) == s5;
  }

  /** `setShape` accepts any int, but only the two known shapes give the
      painter a clip radius; any other value makes the next paint fail. */
  lemma ShapeDecidesClipRadius(s: Avatar, shape: int, env: Env)
    ensures Paint.ClipRadius(Step(s, SetShape(shape), env).shape, s.width, s.height).Some?
      <==> shape == Circle || shape == Rectangle
  {
  }

  /** `isGif` is decided once, by the constructor's URL, and no event
      changes it or the animation flag: a widget built from a `.gif` URL
      never rotates on hover, whatever happens to it. */
  lemma GifWidgetNeverRotates(shape: int, url: string, image: Option<Acquisition.ImageArg>,
                              size: Config.SizeArg, animation: bool, env: Env,
                              events: seq<Event>)
    requires EndsWith(url, ".gif")
    ensures !Hover.Rotates(Run(Create(shape, url, image, size, animation, env), events, env))
  {
  }
}
